=== FILE: README.md ===
# db-fakedisplay front-end logic in Dafny

A model of the decision logic in the client-side scripts of the db-fakedisplay
departure board. Each DOM or timer callback runs to completion in the
browser's single thread, so each one is modelled as one pure state transition.
There are three parts.

- **Live map marker** (`MapRefresh`, from `public/static/js/map-refresh.js`).
  - The `#jdata` element's `data-poly` string (`lat;lon|lat;lon|…`) replaces a FIFO queue of target positions.
  - A coarse tick (every 2000 ms) dequeues the next target and builds a 60-frame linear path to it from the marker's current position.
  - A fine tick (every 33 ms) moves the marker along that path, one frame per tick.
  - A refresh reloads the info box and re-reads the queue. It waits 61 s after a success and 5 s after a failure.
  - The state is the queue, the frame buffer, the frame cursor, the request id and the marker position.
  - Coordinates are `real`. `parseFloat` is passed in as a function parameter.
- **Departure board** (`Board`, from `public/static/js/collapse.js`).
  - The cadence of `reload_app`.
  - The query suffix and path that a click on a departure pushes.
  - The `past`/`selected` marking of list items from the URL anchor.
  - The data line, message list and route list of the detail panel.
- **Panels and settings sections** (`Panels`, `Settings`, from `public/static/collapse.js` and `public/collapse.js`).
  - Exclusive expand/collapse of the `.moreinfo` panels: expanding one panel first collapses every other one.
  - The two-class toggle of the "more settings" and "developers" sections.

`JsText` supplies the JavaScript semantics these scripts rely on:
- JavaScript truthiness of an optional string;
- `String.prototype.split` with a one-character separator, and `Array.prototype.join`;
- the outcome of a `$.get`.

It also proves that split and join are inverse to each other.

The main properties proved:
- **Map.**
  - Parsing installs one position per `|` field, in order.
  - Parsing the serialised form of a non-empty queue gives back that queue, when every coordinate is printed as text that `parseFloat` reads back and that holds no separator.
  - Every frame lies between the start and the target, and the last frame is the target.
  - Any interleaving of ticks and refreshes keeps the cursor within the buffer.
  - A coarse period receives 60 or 61 fine ticks. A coarse tick followed by at least 60 fine ticks leaves the marker exactly on the target.
- **Panels.** "At most one panel expanded" is preserved by every item click.
- **Board.**
  - The suffix holds each flag exactly when its URL parameter is set, and keeps the source's order.
  - The suffix reads back as the pairs it was built from, through a reader that splits at `&` and `=` and decodes nothing, when no value contains `&`, `=`, `+`, `%` or `#`.
  - The anchor marking agrees with an independent "first item holding the anchor" definition.
  - The route list joins back to the `data-routeprev` and `data-routenext` attributes.

Behaviours of the code that the model follows as written:
- **Empty `data-poly`.** An empty or missing `data-poly` is falsy, so `dbf_map_parse` keeps the old queue instead of installing an empty one (`MapRefresh.EmptyPolyKeepsQueue`).
- **`dbf_show_moreinfo` expands every panel.** It adds `expanded-moreinfo` to every `.moreinfo` element, not only one.
- **Steps per coarse tick.** The coarse interval is not a multiple of the fine interval (2000 = 60 · 33 + 20). Both intervals start together, so a coarse period receives 60 or 61 fine ticks, about six periods in ten getting 61. The first 60 walk the 60 frames; a 61st finds the buffer drained and does nothing.

Modelling notes:
- **Initial frame cursor.** `j_frame_i` starts as an empty array, so the first fine ticks find no frame. The model starts the cursor at 0 on an empty buffer, which behaves the same.
- **Fine-tick guard.** `if (j_frame[j_frame_i])` tests an array entry. Every entry is a two-element array, which is always truthy, so the guard is exactly "the cursor is within the buffer".
- **Unescaped query values.** The suffix puts the `efa`/`hafas` values and the station into the URL without escaping. The next click reads it back with `URLSearchParams`, which turns `+` into a space, decodes `%XX`, and loses everything after a `#`, which ends `location.search`. The round trip (`Board.SuffixRoundTrip`) goes through `Board.ParseQuery`, a reader that decodes nothing, and is stated for values holding none of `&`, `=`, `+`, `%`, `#`; on those the two readers agree.

## Model

| member | source | states |
|---|---|---|
| JsText.Split | public/static/js/map-refresh.js:24-27 | `split` yields at least one field, and no field contains the separator |
| JsText.SplitJoin | public/static/js/map-refresh.js:24-27 | splitting a join of separator-free fields gives the fields back |
| JsText.JoinSplit | public/static/js/collapse.js:39-41 | joining the fields of a split gives back the original string |
| MapRefresh.Parse | public/static/js/map-refresh.js:7-34 | with no `#jdata` nothing changes; otherwise the request id is always taken from `data-req`; a falsy `data-poly` keeps the queue; a truthy one replaces it with one position per `|` field, in order; the frames, cursor and marker are untouched |
| MapRefresh.ParseEncode | public/static/js/map-refresh.js:22-31 | when every coordinate of a non-empty queue is printed as separator-free text that `num` reads back to it, parsing the serialised queue installs exactly that queue, whatever was queued before |
| MapRefresh.EmptyPolyKeepsQueue | public/static/js/map-refresh.js:22-23 | an empty queue serialises to `""`, and parsing `""` keeps the stale queue |
| MapRefresh.BuildFrame | public/static/js/map-refresh.js:45-54 | the frame loop yields exactly the 60-frame path, frame k being start + (target − start)·(k+1)/60, and its last frame equals the target |
| MapRefresh.CoarseTick | public/static/js/map-refresh.js:36-56 | an empty queue changes nothing; otherwise the head is removed, the rest keeps its order, the buffer becomes the 60-frame path from the marker to the head ending on the head, and the cursor is 0 |
| MapRefresh.PathEndsAtTarget | public/static/js/map-refresh.js:49-52 | the 60th frame is the target |
| MapRefresh.PathApproachesTarget | public/static/js/map-refresh.js:49-52 | every frame lies componentwise between start and target; a later frame lies between an earlier one and the target, so the marker never overshoots |
| MapRefresh.FineTick | public/static/js/map-refresh.js:58-62 | with the cursor on a frame, the marker moves to that frame and the cursor advances; otherwise nothing changes |
| MapRefresh.FineTicksFollowFrame | public/static/js/map-refresh.js:58-62 | n fine ticks within the buffer leave the cursor n further on, put the marker on the last frame passed, and keep queue and buffer |
| MapRefresh.RunPreservesValid | public/static/js/map-refresh.js:36-71 | any interleaving of coarse ticks, fine ticks and refreshes keeps cursor ≤ buffer length, with a buffer of 0 or 60 frames |
| MapRefresh.CoarseThenFinesReachTarget | public/static/js/map-refresh.js:74-79 | a coarse tick followed by any number of fine ticks no smaller than the frame count drains the buffer and leaves the marker exactly on the dequeued target |
| MapRefresh.FineTicksInPeriodBounds | public/static/js/map-refresh.js:77-78 | with both intervals started together, every 2000 ms coarse period receives 60 or 61 of the 33 ms fine ticks |
| MapRefresh.FinesAndReloads | public/static/js/map-refresh.js:58-72 | between coarse ticks, any mix of fine ticks and refresh callbacks keeps the buffer, moves the cursor one frame per fine tick until the buffer is drained, and leaves the marker on the last frame passed |
| MapRefresh.PeriodReachesTarget | public/static/js/map-refresh.js:74-79 | in every coarse period, the coarse tick and that period's 60 or 61 fine ticks land the marker on the dequeued target, whatever refresh callbacks fire in between |
| MapRefresh.ScenarioSingleTarget | public/static/js/map-refresh.js:36-62 | queue [(52.0, 8.0)] with the marker at (51.9, 7.9): after one coarse and 60 fine ticks the marker is at (52.0, 8.0) and the queue is empty |
| MapRefresh.Refresh | public/static/js/map-refresh.js:64-72 | a successful refresh re-parses and waits 61000 ms; a failed one changes nothing and retries after 5000 ms |
| MapRefresh.ScenarioRetryThenRecover | public/static/js/map-refresh.js:64-71 | after a failure the retry is the short delay; a subsequent success restores the long one |
| MapRefresh.Boot | public/static/js/map-refresh.js:74-81 | start-up is one parse of `#jdata` over an empty queue and buffer with no request id; the result is valid, the marker stays where it was, and the first refresh comes after 61000 ms |
| Panels.CollapseAll | public/static/collapse.js:10-15 | every panel ends collapsed |
| Panels.ToggleChild | public/static/collapse.js:4-18 | an expanded panel is collapsed and nothing else changes; a collapsed panel becomes the only expanded one; at most one expanded is preserved |
| Panels.ToggleChildren | public/static/collapse.js:4-19 | toggling an item's children in turn preserves "at most one panel expanded" |
| Panels.Click | public/static/collapse.js:2-21 | items outside the script's lists are ignored; every click preserves "at most one panel expanded" |
| Panels.BoardClickExpanded | public/static/collapse.js:5-8 | clicking an item whose panel is expanded collapses that panel and leaves every other panel unchanged |
| Panels.BoardClickCollapsed | public/static/collapse.js:9-18 | clicking an item whose panel is collapsed leaves that panel as the only expanded one |
| Panels.ClickTwice | public/static/collapse.js:4-19 | two clicks on a collapsed single-panel item leave all panels collapsed, and panels the first click closed stay closed; from the one expanded panel two clicks restore the page |
| Panels.TwoChildrenClickTwice | public/static/collapse.js:4-19 | for an item with two collapsed panels, a second click leaves the second panel expanded, not none |
| Panels.CleanClick | public/collapse.js:2-21 | on `div.displayclean` items an expanded panel collapses alone; a collapsed one is expanded after all others collapse; at most one stays expanded; a second click on an initially collapsed item leaves none expanded |
| Settings.ClickHeader | public/static/js/collapse.js:172-188 | after a header click, header and panel each carry exactly one class and agree; the section opens exactly when the header had the collapsed class |
| Settings.ClickHeaderTwice | public/static/collapse.js:22-38 | on a settled section a click flips the state and two clicks are the identity |
| Settings.UnmarkedHeaderCloses | public/static/js/collapse.js:189-205 | a header with neither class is treated as expanded and closes |
| Board.ReloadApp | public/static/js/collapse.js:20-36 | a request is sent exactly when no panel is expanded; otherwise the next try comes after 30000 ms |
| Board.ReloadSettle | public/static/js/collapse.js:25-31 | the request's callbacks install a new list exactly when it succeeded, then wait 60000 ms; a failure waits 10000 ms |
| Board.PanelOpenedInFlight | public/static/js/collapse.js:20-31 | with no panel expanded the request is sent; if a departure's details are shown before it settles, every panel is expanded then, and a success still replaces the list, since the callback re-checks no panel |
| Board.DetailGuardsReload | public/static/js/collapse.js:101-102 | once a detail panel is shown, `reload_app` makes no request |
| Board.Get | public/static/js/collapse.js:110-113 | `URLSearchParams.get` is null exactly when no pair has the key, and otherwise returns the value of a pair with that key |
| Board.GetIsFirst | public/static/js/collapse.js:110-113 | when several pairs share a key, `get` returns the value of the first one |
| Board.SuffixFlags | public/static/js/collapse.js:112-127 | `detailed=1` and `past=1` appear exactly when their parameters are truthy; `rt=1` appears exactly when `rt` or `show_realtime` is truthy |
| Board.SuffixBackend | public/static/js/collapse.js:116-121 | an `efa` or `hafas` key appears exactly when the parameter is truthy and not `'0'`, and is then immediately followed by `highlight=<station>` |
| Board.SuffixOrder | public/static/js/collapse.js:112-127 | the suffix keys come in the order detailed, efa, hafas, past, rt, each at most once |
| Board.Render | public/static/js/collapse.js:112 | the suffix always starts with `?` |
| Board.RenderParse | public/static/js/collapse.js:112-127 | a rendered query string reads back through the non-decoding `ParseQuery` as its pairs when no key or value contains `&`, `=`, `+`, `%` or `#` |
| Board.SuffixRoundTrip | public/static/js/collapse.js:112-127 | the handler's suffix reads back through `ParseQuery` as exactly its pairs when the backend values and station contain none of `&`, `=`, `+`, `%`, `#` |
| Board.PushPath | public/static/js/collapse.js:128-134 | the pushed path starts with `/z/` |
| Board.PushPathIdentifiesTrain | public/static/js/collapse.js:128-134 | the pushed path ends with the suffix; between `/z/` and the suffix it holds the journey id for an active HAFAS or EFA backend, and otherwise the train and station as two `/`-separated segments |
| Board.FirstAnchor | public/static/js/collapse.js:137-149 | returns the first item with an anchor of the id and nothing before it has one; with no such item, none has it |
| Board.MarkAnchors | public/static/js/collapse.js:137-168 | with an empty hash or no matching anchor, no item is marked; otherwise the items before the first matching item get `past`, that item gets `selected`, and later items are untouched |
| Board.Entries | public/static/js/collapse.js:39-41 | an attribute's entries join back to the attribute; an empty attribute has no entries |
| Board.DataLine | public/static/js/collapse.js:55-70 | three cells in the order arrival, platform, departure; a cell is empty exactly when its value is; otherwise it is `An: `, `Gleis ` or `Ab: ` followed by the value |
| Board.RouteList | public/static/js/collapse.js:82-94 | the previous stops, then the page title (`document.title`) as the one current entry, then the next stops; empty attributes add no stops |
| Board.RouteListRecoversAttributes | public/static/js/collapse.js:82-94 | the stops before the current entry join to `data-routeprev`, and those after it to `data-routenext` |
| Board.ShowMoreinfo | public/static/js/collapse.js:38-104 | with `keep_old` no footer is built; otherwise it has the data line, the route list, a loading note only when none is present, and messages exactly when `data-moreinfo` is non-empty (joining back to it); every panel ends expanded |

## Left out

- Geolocation scripts (`public/static/js/geostop.js`, `public/static/js/geotrain.js`, `public/static/geolocation.js`): browser Geolocation callbacks and rendering of server responses, with no decision logic beyond rendering branches.
- Network and timers: `$.get`, `$.post` and their failure callbacks become a `Fetch` outcome parameter. `setTimeout`/`setInterval` become returned delays and the constants 2000 and 33; no clock is modelled. The fine-tick count per coarse period (`MapRefresh.FineTicksInPeriod`) assumes ideal timers that fire exactly on their deadlines, with no drift or throttling.
- `parseFloat`, IEEE rounding and NaN: coordinates are reals, and number parsing is an arbitrary function parameter.
- jQuery's `.data()` turns numeric-looking attributes into numbers and yields `undefined` for missing ones; the attributes of a departure (`Board.Train`) are modelled as strings that are always present; `data-req` and `data-poly` of `#jdata` are optional strings.
- Board.DataLine: a numeric attribute such as `data-platform="0"` becomes the number 0, and `0 != ''` is false in JavaScript, so the source shows an empty platform cell (public/static/js/collapse.js:61-65) where the model shows `Gleis 0`.
- Board.ShowMoreinfo: a missing `data-routeprev`, `data-routenext` or `data-moreinfo` makes `.split` throw at public/static/js/collapse.js:39-41, so the handler stops and no panel is expanded; the model always builds the panel.
- The URL of the map refresh request (`/_ajax_mapinfo/` followed by the request id, public/static/js/map-refresh.js:65): the request is the `Fetch` outcome parameter, so the URL it names is not modelled.
- The Leaflet marker becomes a plain position field.
- The `$.get` of a departure's details in `dbf_show_moreinfo` (public/static/js/collapse.js:96-100) and its "train not found" message: network.
- The header texts and line-type classes copied into the detail panel (public/static/js/collapse.js:45-54): verbatim copies of attributes, with no decision.
- `dbf_show_moreinfo` rebuilds the footer once for each `.moreinfo` element. Every pass clears and rebuilds all footers identically, so the footer is modelled once.
- `history.pushState` state objects, `onpopstate` (public/static/js/collapse.js:211-243), `history.replaceState` and the first `reload_app` 30 s after load (public/static/js/collapse.js:206-210): browser history and scheduling.
- `setLang` and `setTheme`: cookies and `localStorage`.
- HTML escaping and markup injection of the built strings. The data line, messages and route are modelled as structured values, not as HTML text.
- The commented-out route parser in `dbf_map_parse`.
- Board.SuffixRoundTrip: `URLSearchParams` itself (percent- and `+`-decoding, splitting a field at its first `=` only) is not modelled. The round trip is proved for `ParseQuery`, on values where the two readers agree. So it makes no promise for a value with `=`, which the browser would still read back intact, nor for values it would decode.
- Panels.ClickTwice: states the two-click behaviour for items with one `.moreinfo` child only, because with several children the source does not return to "none expanded" (`Panels.TwoChildrenClickTwice`).
- Settings.ClickHeaderTwice: two clicks are the identity only from a settled section. From a header with neither class the first click closes the section (`Settings.UnmarkedHeaderCloses`).

=== FILE: board.dfy ===
/**
 The decisions of the departure board script: how often the list reloads,
 which URL a click on a departure pushes, which list items the URL anchor
 marks as past or selected, and what the detail panel shows for a departure.
 */
module Board {
  import opened JsText
  import Panels

  /** Delays of `reload_app`: after a reload, after a failed one, while a detail panel is open. */
  const ReloadOkDelayMs: nat := 60000
  const ReloadRetryDelayMs: nat := 10000
  const ReloadBusyDelayMs: nat := 30000

  /** A departure list item and the data attributes its handlers read;
      `anchors` are the ids of its `.anchor` descendants. */
  datatype Train = Train(
    jid: string, train: string, station: string,
    arrival: string, platform: string, departure: string,
    routeprev: string, routenext: string, moreinfo: string,
    anchors: seq<string>)

  // ---------------------------------------------------------------- reload_app

  /** What a `reload_app` timer does when it fires: send the request, or wait. */
  datatype ReloadStart = Requested | Postponed(delayMs: nat)

  /** The guard of `reload_app`: a request only while no detail panel is
      expanded, otherwise another try in 30 s. */
  function ReloadApp(panels: Panels.Flags): (r: ReloadStart)
    ensures r.Requested? <==> Panels.NoneExpanded(panels)
    ensures r.Postponed? ==> r.delayMs == ReloadBusyDelayMs
  {
    if exists i :: 0 <= i < |panels| && panels[i] then Postponed(ReloadBusyDelayMs) else Requested
  }

  /** A settled `reload_app` request: the list it installs, if any, and the next delay. */
  datatype AppReload<T> = AppReload(newList: Option<T>, delayMs: nat)

  /** The request's callbacks, which run later and look at no panel: a success
      replaces the list and waits 60 s, a failure keeps it and retries after 10 s. */
  function ReloadSettle<T>(fetch: Fetch<T>): (r: AppReload<T>)
    ensures r.newList.Some? <==> fetch.Loaded?
    ensures fetch.Loaded? ==> r.newList == Some(fetch.body) && r.delayMs == ReloadOkDelayMs
    ensures fetch.Failed? ==> r.delayMs == ReloadRetryDelayMs
  {
    match fetch
    case Loaded(list) => AppReload(Some(list), ReloadOkDelayMs)
    case Failed => AppReload(None, ReloadRetryDelayMs)
  }

  /** The guard is only checked when the request is sent: a departure's
      details shown while the request is in flight leave every panel expanded
      when it settles, and the success callback, which looks at no panel, still
      replaces the list under them (its last conjunct is `ReloadSettle`'s own
      contract, restated here for the interleaving). */
  lemma {:induction false} PanelOpenedInFlight<T>(t: Train, title: string, keepOld: bool, loadingShown: bool,
                                                   p: Panels.Flags, list: T)
    requires |p| > 0 && Panels.NoneExpanded(p)
    ensures ReloadApp(p).Requested?
    ensures var shown := ShowMoreinfo(t, title, keepOld, loadingShown, p).panels;
            && !Panels.NoneExpanded(shown)
            && ReloadSettle(Loaded(list)).newList == Some(list)
  {
    assert ShowMoreinfo(t, title, keepOld, loadingShown, p).panels[0];
  }

  // ---------------------------------------------------------------- URL

  /** The page's query parameters in order, as `URLSearchParams` holds them. */
  type Query = seq<(string, string)>

  /** `URLSearchParams.get`: the value of the first pair with this key, or null. */
  function Get(q: Query, key: string): (r: Option<string>)
    ensures r.None? <==> forall i :: 0 <= i < |q| ==> q[i].0 != key
    ensures r.Some? ==> exists i :: 0 <= i < |q| && q[i] == (key, r.value)
    decreases |q|
  {
    if |q| == 0 then None
    else if q[0].0 == key then Some(q[0].1)
    else
      var rest := Get(q[1..], key);
      assert forall i :: 1 <= i < |q| ==> q[i] == q[1..][i - 1];
      rest
  }

  /** `Get` answers from the first pair with the key, whatever later pairs hold. */
  lemma {:induction false} GetIsFirst(q: Query, key: string, i: nat)
    requires i < |q| && q[i].0 == key
    requires forall j :: 0 <= j < i ==> q[j].0 != key
    ensures Get(q, key) == Some(q[i].1)
    decreases i
  {
    if i > 0 {
      assert q[1..][i - 1] == q[i];
      GetIsFirst(q[1..], key, i - 1);
    }
  }

  /** A backend parameter (`efa`, `hafas`) that selects it: truthy and not `'0'`. */
  predicate Active(v: Option<string>) {
    Truthy(v) && v.value != "0"
  }

  /** The trains shown come from a HAFAS or EFA backend, identified by journey id. */
  predicate JourneyBackend(q: Query) {
    Active(Get(q, "hafas")) || Active(Get(q, "efa"))
  }

  /** The pairs each `if` of the click handler appends. */
  function DetailedPart(q: Query): Query {
    if Truthy(Get(q, "detailed")) then [("detailed", "1")] else []
  }

  function BackendPart(q: Query, backend: string, station: string): Query {
    var v := Get(q, backend);
    if Active(v) then [(backend, v.value), ("highlight", station)] else []
  }

  function PastPart(q: Query): Query {
    if Truthy(Get(q, "past")) then [("past", "1")] else []
  }

  function RealtimePart(q: Query): Query {
    if Truthy(Get(q, "rt")) || Truthy(Get(q, "show_realtime")) then [("rt", "1")] else []
  }

  /** The query pairs the click handler appends to `?`, in the order it appends them. */
  function SuffixPairs(q: Query, station: string): Query {
    DetailedPart(q) + BackendPart(q, "efa", station) + BackendPart(q, "hafas", station)
    + PastPart(q) + RealtimePart(q)
  }

  function Keys(pairs: Query): (r: seq<string>)
    ensures |r| == |pairs| && forall i :: 0 <= i < |pairs| ==> r[i] == pairs[i].0
  {
    seq(|pairs|, i requires 0 <= i < |pairs| => pairs[i].0)
  }

  /** The position of a key in the handler's fixed order; `highlight` has none of its own. */
  function Rank(key: string): int {
    if key == "detailed" then 0
    else if key == "efa" then 1
    else if key == "hafas" then 2
    else if key == "past" then 3
    else if key == "rt" then 4
    else -1
  }

  /** Every ranked key of `pairs` ranks within `lo..hi`, and ranked keys strictly increase. */
  predicate RankedWithin(pairs: Query, lo: int, hi: int) {
    && (forall i :: 0 <= i < |pairs| && Rank(pairs[i].0) >= 0 ==> lo <= Rank(pairs[i].0) <= hi)
    && (forall i, j :: 0 <= i < j < |pairs| && Rank(pairs[i].0) >= 0 && Rank(pairs[j].0) >= 0 ==>
          Rank(pairs[i].0) < Rank(pairs[j].0))
  }

  lemma RankedConcat(a: Query, b: Query, lo: int, mid: int, hi: int)
    requires lo <= mid <= hi
    requires RankedWithin(a, lo, mid) && RankedWithin(b, mid + 1, hi)
    ensures RankedWithin(a + b, lo, hi)
  {
    var ab := a + b;
    forall i, j | 0 <= i < j < |ab| && Rank(ab[i].0) >= 0 && Rank(ab[j].0) >= 0
      ensures Rank(ab[i].0) < Rank(ab[j].0)
    {
      if j < |a| {
        assert ab[i] == a[i] && ab[j] == a[j];
      } else if i < |a| {
        assert ab[i] == a[i] && ab[j] == b[j - |a|];
      } else {
        assert ab[i] == b[i - |a|] && ab[j] == b[j - |a|];
      }
    }
    forall i | 0 <= i < |ab| && Rank(ab[i].0) >= 0 ensures lo <= Rank(ab[i].0) <= hi {
      if i < |a| { assert ab[i] == a[i]; } else { assert ab[i] == b[i - |a|]; }
    }
  }

  /** A flag pair is in the suffix exactly when its parameter is set; `rt=1`
      also stands for `show_realtime`. */
  lemma SuffixFlags(q: Query, station: string)
    ensures var r := SuffixPairs(q, station);
            && (("detailed", "1") in r <==> Truthy(Get(q, "detailed")))
            && (("past", "1") in r <==> Truthy(Get(q, "past")))
            && (("rt", "1") in r <==> Truthy(Get(q, "rt")) || Truthy(Get(q, "show_realtime")))
  {
    var r := SuffixPairs(q, station);
    var e := BackendPart(q, "efa", station);
    var h := BackendPart(q, "hafas", station);
    assert r == DetailedPart(q) + e + h + PastPart(q) + RealtimePart(q);
    assert ("detailed", "1") !in e && ("past", "1") !in e && ("rt", "1") !in e;
    assert ("detailed", "1") !in h && ("past", "1") !in h && ("rt", "1") !in h;
  }

  lemma KeysConcat(a: Query, b: Query)
    ensures Keys(a + b) == Keys(a) + Keys(b)
  {
  }

  /** The flag parts of the suffix never carry a backend key. */
  lemma FlagPartsHaveNoBackend(q: Query, backend: string)
    requires backend == "efa" || backend == "hafas"
    ensures backend !in Keys(DetailedPart(q))
    ensures backend !in Keys(PastPart(q) + RealtimePart(q))
  {
    KeysConcat(PastPart(q), RealtimePart(q));
  }

  /** The part appended for a backend carries its key exactly when it is active. */
  lemma BackendPartKeys(q: Query, backend: string, other: string, station: string)
    requires backend == "efa" || backend == "hafas"
    requires backend != other
    ensures backend in Keys(BackendPart(q, backend, station)) <==> Active(Get(q, backend))
    ensures backend !in Keys(BackendPart(q, other, station))
  {
    if Active(Get(q, backend)) {
      assert Keys(BackendPart(q, backend, station))[0] == backend;
    }
    if Active(Get(q, other)) {
      assert Keys(BackendPart(q, other, station)) == [other, "highlight"];
    }
  }

  /** A backend's key is in the suffix exactly when the backend is active, and
      then immediately followed by the clicked item's station as `highlight`. */
  lemma SuffixBackend(q: Query, station: string, backend: string)
    requires backend == "efa" || backend == "hafas"
    ensures var r := SuffixPairs(q, station);
            && (backend in Keys(r) <==> Active(Get(q, backend)))
            && (Active(Get(q, backend)) ==> exists pre, post ::
                  r == pre + [(backend, Get(q, backend).value), ("highlight", station)] + post)
  {
    var r := SuffixPairs(q, station);
    var d := DetailedPart(q);
    var e := BackendPart(q, "efa", station);
    var h := BackendPart(q, "hafas", station);
    var t := PastPart(q) + RealtimePart(q);
    assert r == d + e + h + t;
    KeysConcat(d, e);
    KeysConcat(d + e, h);
    KeysConcat(d + e + h, t);
    FlagPartsHaveNoBackend(q, backend);
    if backend == "efa" {
      BackendPartKeys(q, "efa", "hafas", station);
      if Active(Get(q, backend)) {
        assert r == d + e + (h + t);
      }
    } else {
      BackendPartKeys(q, "hafas", "efa", station);
      if Active(Get(q, backend)) {
        assert r == (d + e) + h + t;
      }
    }
  }

  /** The suffix keys come in the handler's order: detailed, efa, hafas, past, rt. */
  lemma SuffixOrder(q: Query, station: string)
    ensures RankedWithin(SuffixPairs(q, station), 0, 4)
  {
    var d := DetailedPart(q);
    var e := BackendPart(q, "efa", station);
    var h := BackendPart(q, "hafas", station);
    var p := PastPart(q);
    var t := RealtimePart(q);
    assert RankedWithin(e, 1, 1);
    assert RankedWithin(h, 2, 2);
    RankedConcat(d, e, 0, 0, 1);
    RankedConcat(d + e, h, 0, 1, 2);
    RankedConcat(d + e + h, p, 0, 2, 3);
    RankedConcat(d + e + h + p, t, 0, 3, 4);
  }

  /** `key=value`, one field of a query string. */
  function Field(kv: (string, string)): string {
    kv.0 + "=" + kv.1
  }

  /** The query string `?&k1=v1&k2=v2…` the handler builds from its pairs. */
  function Render(pairs: Query): (s: string)
    ensures |s| >= 1 && s[0] == '?'
  {
    "?" + Join([""] + seq(|pairs|, i requires 0 <= i < |pairs| => Field(pairs[i])), '&')
  }

  /** `Suffix`: the handler's URL suffix. */
  function Suffix(q: Query, station: string): string {
    Render(SuffixPairs(q, station))
  }

  /** Reads a query string back into its pairs: a leading `?`, an empty field
      before the first `&`, and then `key=value` fields. */
  function ParseQuery(s: string): Option<Query> {
    if |s| == 0 || s[0] != '?' then None
    else
      var fields := Split(s[1..], '&');
      if fields[0] != "" then None else ParseFields(fields[1..])
  }

  function ParseFields(fs: seq<string>): Option<Query>
    decreases |fs|
  {
    if |fs| == 0 then Some([])
    else
      var kv := Split(fs[0], '=');
      if |kv| != 2 then None
      else match ParseFields(fs[1..])
        case None => None
        case Some(rest) => Some([(kv[0], kv[1])] + rest)
  }

  /** Text that needs no escaping inside a query string: no field or pair
      separator, and nothing `URLSearchParams` would decode (`+`, `%`) or
      `location.search` would cut off (`#`). On such text `ParseQuery` and
      the browser's reader see the same pairs. */
  predicate Plain(s: string) {
    '&' !in s && '=' !in s && '+' !in s && '%' !in s && '#' !in s
  }

  lemma {:induction false} ParseFieldsOfRendered(pairs: Query)
    requires forall i :: 0 <= i < |pairs| ==> Plain(pairs[i].0) && Plain(pairs[i].1)
    ensures ParseFields(seq(|pairs|, i requires 0 <= i < |pairs| => Field(pairs[i]))) == Some(pairs)
    decreases |pairs|
  {
    var fs := seq(|pairs|, i requires 0 <= i < |pairs| => Field(pairs[i]));
    if |pairs| > 0 {
      var k := pairs[0].0;
      var v := pairs[0].1;
      assert fs[0] == Join([k, v], '=');
      SplitJoin([k, v], '=');
      assert fs[1..] == seq(|pairs[1..]|, i requires 0 <= i < |pairs[1..]| => Field(pairs[1..][i]));
      ParseFieldsOfRendered(pairs[1..]);
      assert [(k, v)] + pairs[1..] == pairs;
    }
  }

  /** The rendered query string reads back as the pairs it was built from,
      provided no key or value needs escaping. */
  lemma RenderParse(pairs: Query)
    requires forall i :: 0 <= i < |pairs| ==> Plain(pairs[i].0) && Plain(pairs[i].1)
    ensures ParseQuery(Render(pairs)) == Some(pairs)
  {
    var fs := seq(|pairs|, i requires 0 <= i < |pairs| => Field(pairs[i]));
    forall i | 0 <= i < |[""] + fs| ensures '&' !in ([""] + fs)[i] {
      if i > 0 {
        assert ([""] + fs)[i] == pairs[i - 1].0 + "=" + pairs[i - 1].1;
      }
    }
    SplitJoin([""] + fs, '&');
    assert ([""] + fs)[1..] == fs;
    ParseFieldsOfRendered(pairs);
    assert Render(pairs)[1..] == Join([""] + fs, '&');
  }

  /** The suffix of a page whose backend values and station need no escaping
      reads back as exactly its pairs. */
  lemma SuffixRoundTrip(q: Query, station: string)
    requires Active(Get(q, "efa")) ==> Plain(Get(q, "efa").value)
    requires Active(Get(q, "hafas")) ==> Plain(Get(q, "hafas").value)
    requires Plain(station)
    ensures ParseQuery(Suffix(q, station)) == Some(SuffixPairs(q, station))
  {
    var r := SuffixPairs(q, station);
    var d := DetailedPart(q);
    var e := BackendPart(q, "efa", station);
    var h := BackendPart(q, "hafas", station);
    var p := PastPart(q);
    var t := RealtimePart(q);
    FlagPartsPlain(q);
    BackendPartPlain(q, "efa", station);
    BackendPartPlain(q, "hafas", station);
    forall i | 0 <= i < |r| ensures PlainPair(r[i]) {
      assert r == d + e + h + p + t;
      assert r[i] in d || r[i] in e || r[i] in h || r[i] in p || r[i] in t;
    }
    RenderParse(r);
  }

  predicate PlainPair(kv: (string, string)) {
    Plain(kv.0) && Plain(kv.1)
  }

  /** The fixed keys and the value `1` of the flag parts need no escaping. */
  lemma FlagPartsPlain(q: Query)
    ensures forall kv :: kv in DetailedPart(q) ==> PlainPair(kv)
    ensures forall kv :: kv in PastPart(q) ==> PlainPair(kv)
    ensures forall kv :: kv in RealtimePart(q) ==> PlainPair(kv)
  {
    assert Plain("detailed") && Plain("past") && Plain("rt") && Plain("1");
  }

  /** A backend part needs no escaping when its value and the station need none. */
  lemma BackendPartPlain(q: Query, backend: string, station: string)
    requires Plain(backend) && Plain(station)
    requires Active(Get(q, backend)) ==> Plain(Get(q, backend).value)
    ensures forall kv :: kv in BackendPart(q, backend, station) ==> PlainPair(kv)
  {
    assert Plain("highlight");
  }

  /** The path the click handler pushes: by journey id for a HAFAS or EFA
      backend, otherwise by train number and station. */
  function PushPath(q: Query, t: Train): (path: string)
    ensures |path| >= 3 && path[..3] == "/z/"
  {
    var suffix := Suffix(q, t.station);
    if JourneyBackend(q) then "/z/" + t.jid + suffix
    else "/z/" + t.train + "/" + t.station + suffix
  }

  /** The pushed path identifies the departure: between `/z/` and the suffix
      it holds the journey id for a HAFAS or EFA backend, and otherwise the
      train and the station as two `/`-separated segments. */
  lemma PushPathIdentifiesTrain(q: Query, t: Train)
    requires '/' !in t.train && '/' !in t.station
    ensures var path := PushPath(q, t);
            var suffix := Suffix(q, t.station);
            && |path| >= 3 + |suffix|
            && path[|path| - |suffix|..] == suffix
            && (JourneyBackend(q) ==> path[3..|path| - |suffix|] == t.jid)
            && (!JourneyBackend(q) ==> Split(path[3..|path| - |suffix|], '/') == [t.train, t.station])
  {
    var path := PushPath(q, t);
    var suffix := Suffix(q, t.station);
    if JourneyBackend(q) {
      assert path == "/z/" + t.jid + suffix;
      assert path[3..|path| - |suffix|] == t.jid;
    } else {
      assert path == "/z/" + (t.train + "/" + t.station) + suffix;
      assert path[3..|path| - |suffix|] == t.train + "/" + t.station;
      assert Join([t.train, t.station], '/') == t.train + "/" + t.station;
      SplitJoin([t.train, t.station], '/');
    }
  }

  // ---------------------------------------------------------------- anchor marks

  /** The class the hash anchor adds to a list item. */
  datatype Mark = Unmarked | Past | Selected

  /** `location.hash.substr(1)`: the hash without its `#`. */
  function TrainId(hash: string): string {
    if |hash| == 0 then "" else hash[1..]
  }

  /** The first list item with an anchor of this id. */
  function FirstAnchor(items: seq<Train>, id: string): (r: Option<nat>)
    ensures r.Some? ==> r.value < |items| && id in items[r.value].anchors
                        && forall j :: 0 <= j < r.value ==> id !in items[j].anchors
    ensures r.None? ==> forall j :: 0 <= j < |items| ==> id !in items[j].anchors
    decreases |items|
  {
    if |items| == 0 then None
    else if id in items[0].anchors then Some(0)
    else match FirstAnchor(items[1..], id)
      case None => None
      case Some(k) => Some(k + 1)
  }

  /** The anchor marking at the end of `dbf_reg_handlers`: a first pass finds
      out whether any item holds the anchor named by the hash; if one does, a
      second pass marks the items before the first such item `past` and that
      item `selected`, and leaves the rest alone. */
  method MarkAnchors(items: seq<Train>, hash: string) returns (marks: seq<Mark>)
    ensures |marks| == |items|
    ensures (TrainId(hash) == "" || FirstAnchor(items, TrainId(hash)).None?) ==>
              forall i :: 0 <= i < |items| ==> marks[i] == Unmarked
    ensures TrainId(hash) != "" && FirstAnchor(items, TrainId(hash)).Some? ==>
              var k := FirstAnchor(items, TrainId(hash)).value;
              && (forall i :: 0 <= i < k ==> marks[i] == Past)
              && marks[k] == Selected
              && (forall i :: k < i < |items| ==> marks[i] == Unmarked)
  {
    var id := TrainId(hash);
    marks := seq(|items|, _ => Unmarked);
    if id == "" {
      return;
    }
    var found := false;
    var i := 0;
    while i < |items|
      invariant 0 <= i <= |items|
      invariant found <==> exists j :: 0 <= j < i && id in items[j].anchors
    {
      if !found && id in items[i].anchors {
        found := true;
      }
      i := i + 1;
    }
    if !found {
      return;
    }
    ghost var k := FirstAnchor(items, id).value;
    found := false;
    i := 0;
    while i < |items|
      invariant 0 <= i <= |items|
      invariant |marks| == |items|
      invariant found <==> k < i
      invariant forall j :: 0 <= j < i && j < k ==> marks[j] == Past
      invariant k < i ==> marks[k] == Selected
      invariant forall j :: k < j < |items| ==> marks[j] == Unmarked
      invariant forall j :: i <= j < |items| ==> marks[j] == Unmarked
    {
      if !found {
        if id in items[i].anchors {
          found := true;
        }
        if found {
          marks := marks[i := Selected];
        } else {
          marks := marks[i := Past];
        }
      }
      i := i + 1;
    }
  }

  // ---------------------------------------------------------------- detail panel

  /** One cell of the data line: its class and its text. */
  datatype Cell = Cell(cls: string, text: string)

  /** One stop of the route list; `current` marks the entry named by the page title. */
  datatype RouteEntry = RouteEntry(name: string, current: bool)

  /** The rebuilt panel footer. */
  datatype Footer = Footer(dataline: seq<Cell>, loading: bool, messages: Option<seq<string>>, route: seq<RouteEntry>)

  /** The effect of `dbf_show_moreinfo`: the new footer (none when the old one
      is kept) and the panel flags afterwards. */
  datatype Detail = Detail(footer: Option<Footer>, panels: Panels.Flags)

  const CellClasses: seq<string> := ["arrival", "platform", "departure"]
  const CellLabels: seq<string> := ["An: ", "Gleis ", "Ab: "]

  /** The `|`-separated entries of a list attribute; an empty attribute has none. */
  function Entries(attr: string): (r: seq<string>)
    ensures Join(r, '|') == attr
    ensures attr != "" ==> r == Split(attr, '|')
    ensures attr == "" <==> |r| == 0
  {
    if attr == "" then [] else JoinSplit(attr, '|'); Split(attr, '|')
  }

  /** A cell text: the label and the value, or nothing for an empty value. */
  function Labeled(caption: string, value: string): string {
    if value == "" then "" else caption + value
  }

  function TimesOf(t: Train): seq<string> {
    [t.arrival, t.platform, t.departure]
  }

  /** The data line: always the arrival, platform and departure cells in that
      order, each labelled only when its value is non-empty, and the value
      readable back after the label. */
  function DataLine(t: Train): (r: seq<Cell>)
    ensures |r| == 3
    ensures forall i :: 0 <= i < 3 ==> r[i].cls == CellClasses[i]
    ensures forall i :: 0 <= i < 3 ==> (r[i].text == "" <==> TimesOf(t)[i] == "")
    ensures forall i :: 0 <= i < 3 && TimesOf(t)[i] != "" ==>
              && |r[i].text| == |CellLabels[i]| + |TimesOf(t)[i]|
              && r[i].text[..|CellLabels[i]|] == CellLabels[i]
              && r[i].text[|CellLabels[i]|..] == TimesOf(t)[i]
  {
    var times := TimesOf(t);
    seq(3, i requires 0 <= i < 3 => Cell(CellClasses[i], Labeled(CellLabels[i], times[i])))
  }

  /** The route list: the previous stops, the page title (`document.title`) as the current entry, the next stops. */
  function RouteList(t: Train, title: string): (r: seq<RouteEntry>)
    ensures var prev := Entries(t.routeprev);
            var next := Entries(t.routenext);
            && |r| == |prev| + 1 + |next|
            && (forall i :: 0 <= i < |r| ==> (r[i].current <==> i == |prev|))
            && r[|prev|].name == title
            && (forall i :: 0 <= i < |prev| ==> r[i].name == prev[i])
            && (forall i :: 0 <= i < |next| ==> r[|prev| + 1 + i].name == next[i])
  {
    var prev := Entries(t.routeprev);
    var next := Entries(t.routenext);
    seq(|prev|, i requires 0 <= i < |prev| => RouteEntry(prev[i], false))
    + [RouteEntry(title, true)]
    + seq(|next|, i requires 0 <= i < |next| => RouteEntry(next[i], false))
  }

  function Names(r: seq<RouteEntry>): seq<string> {
    seq(|r|, i requires 0 <= i < |r| => r[i].name)
  }

  /** The route list gives back both route attributes: the stops before the
      current entry join to `data-routeprev` and those after it to `data-routenext`. */
  lemma RouteListRecoversAttributes(t: Train, title: string)
    ensures var r := RouteList(t, title);
            var n := |Entries(t.routeprev)|;
            && n < |r| && r[n].current && r[n].name == title
            && Join(Names(r[..n]), '|') == t.routeprev
            && Join(Names(r[n + 1..]), '|') == t.routenext
  {
    var r := RouteList(t, title);
    var prev := Entries(t.routeprev);
    var next := Entries(t.routenext);
    var n := |prev|;
    assert Names(r[..n]) == prev;
    assert Names(r[n + 1..]) == next;
  }

  /** `dbf_show_moreinfo`: unless the old content is kept, the footer is rebuilt
      from the departure (a loading note only when none is on the panel,
      messages only for a non-empty `data-moreinfo`); every panel ends expanded. */
  function ShowMoreinfo(t: Train, title: string, keepOld: bool, loadingShown: bool, panels: Panels.Flags): (d: Detail)
    ensures d.footer.None? <==> keepOld
    ensures d.footer.Some? ==>
              && d.footer.value.dataline == DataLine(t)
              && d.footer.value.route == RouteList(t, title)
              && (d.footer.value.loading <==> !loadingShown)
              && (d.footer.value.messages.Some? <==> t.moreinfo != "")
              && (t.moreinfo != "" ==> Join(d.footer.value.messages.value, '|') == t.moreinfo)
    ensures |d.panels| == |panels| && forall i :: 0 <= i < |panels| ==> d.panels[i]
  {
    var footer :=
      if keepOld then None
      else Some(Footer(DataLine(t), !loadingShown,
                       if t.moreinfo != "" then Some(Entries(t.moreinfo)) else None,
                       RouteList(t, title)));
    Detail(footer, seq(|panels|, i requires 0 <= i < |panels| => true))
  }

  /** Showing a departure's details holds back the list reloads. */
  lemma DetailGuardsReload(t: Train, title: string, keepOld: bool, loadingShown: bool, panels: Panels.Flags)
    requires |panels| > 0
    ensures ReloadApp(ShowMoreinfo(t, title, keepOld, loadingShown, panels).panels).Postponed?
  {
    assert ShowMoreinfo(t, title, keepOld, loadingShown, panels).panels[0];
  }
}

=== FILE: js_text.dfy ===
/**
 The small slice of JavaScript value semantics the scripts rely on:
 optional values (`undefined`/`null` versus a string), truthiness of an
 optional string, `String.prototype.split` with a one-character separator,
 `Array.prototype.join`, and the outcome of an asynchronous `$.get`.
 */
module JsText {

  /** A value that may be absent (`undefined` from `.data(...)`, `null` from `URLSearchParams.get`). */
  datatype Option<+T> = None | Some(value: T)

  /** The outcome of one `$.get`: the success callback with its body, or the `.fail` callback. */
  datatype Fetch<+T> = Loaded(body: T) | Failed

  /** JavaScript truthiness of an optional string: present and not empty. */
  predicate Truthy(v: Option<string>) {
    v.Some? && v.value != ""
  }

  /** `s.split(d)`: the maximal runs of `s` between occurrences of `d`, in order.
      Like JavaScript, the empty string splits into one empty field. */
  function Split(s: string, d: char): (r: seq<string>)
    ensures |r| >= 1
    ensures forall i :: 0 <= i < |r| ==> d !in r[i]
    decreases |s|
  {
    if |s| == 0 then [""]
    else
      var rest := Split(s[1..], d);
      if s[0] == d then [""] + rest
      else [[s[0]] + rest[0]] + rest[1..]
  }

  /** `parts.join(d)`; an empty array joins to the empty string. */
  function Join(parts: seq<string>, d: char): string
    decreases |parts|
  {
    if |parts| == 0 then ""
    else if |parts| == 1 then parts[0]
    else parts[0] + [d] + Join(parts[1..], d)
  }

  /** Joining the fields of a split gives back the original string. */
  lemma {:induction false} JoinSplit(s: string, d: char)
    ensures Join(Split(s, d), d) == s
    decreases |s|
  {
    if |s| > 0 {
      var rest := Split(s[1..], d);
      JoinSplit(s[1..], d);
      if s[0] == d {
        assert Split(s, d) == [""] + rest;
        assert ([""] + rest)[1..] == rest;
        assert s == [d] + s[1..];
      } else {
        var r := Split(s, d);
        assert r == [[s[0]] + rest[0]] + rest[1..];
        if |rest| == 1 {
          assert rest == [rest[0]];
        } else {
          assert r[1..] == rest[1..];
        }
        assert s == [s[0]] + s[1..];
      }
    }
  }

  /** A string without the separator is a single field. */
  lemma {:induction false} SplitNoSeparator(s: string, d: char)
    requires d !in s
    ensures Split(s, d) == [s]
    decreases |s|
  {
    if |s| > 0 {
      assert d !in s[1..] by {
        forall c | c in s[1..] ensures c != d { assert c in s; }
      }
      SplitNoSeparator(s[1..], d);
      assert [s[0]] + s[1..] == s;
    }
  }

  /** A separator-free prefix followed by the separator contributes exactly one field. */
  lemma {:induction false} SplitAfterField(p: string, d: char, t: string)
    requires d !in p
    ensures Split(p + [d] + t, d) == [p] + Split(t, d)
    decreases |p|
  {
    if |p| == 0 {
      assert p + [d] + t == [d] + t;
      assert ([d] + t)[1..] == t;
    } else {
      var s := p + [d] + t;
      assert s[0] == p[0];
      assert s[1..] == p[1..] + [d] + t;
      assert d !in p[1..] by {
        forall c | c in p[1..] ensures c != d { assert c in p; }
      }
      SplitAfterField(p[1..], d, t);
      var rest := Split(s[1..], d);
      assert rest == [p[1..]] + Split(t, d);
      assert [p[0]] + p[1..] == p;
      assert Split(s, d) == [[p[0]] + rest[0]] + rest[1..];
      assert rest[1..] == Split(t, d);
    }
  }

  /** Splitting a join of separator-free fields gives the fields back. */
  lemma {:induction false} SplitJoin(parts: seq<string>, d: char)
    requires |parts| >= 1
    requires forall i :: 0 <= i < |parts| ==> d !in parts[i]
    ensures Split(Join(parts, d), d) == parts
    decreases |parts|
  {
    if |parts| == 1 {
      SplitNoSeparator(parts[0], d);
    } else {
      SplitJoin(parts[1..], d);
      SplitAfterField(parts[0], d, Join(parts[1..], d));
      assert [parts[0]] + parts[1..] == parts;
    }
  }
}

=== FILE: map_refresh.dfy ===
/**
 The live map of one train journey: a FIFO queue of target positions filled
 from the page's `#jdata` element, a coarse timer that turns the next target
 into a 60-frame linear path from the marker's current position, a fine timer
 that moves the marker one frame per tick, and a refresh loop that reloads the
 info box and re-reads the queue.

 Every timer or network callback runs to completion in the browser's single
 thread, so each one is a pure transition of `MapState`. Coordinates are
 reals; `parseFloat` is the parameter `num`.
 */
module MapRefresh {
  import opened JsText

  datatype LatLng = LatLng(lat: real, lon: real)

  /** Frames in one coarse path: one per fine tick of a two-second coarse period. */
  const FrameCount: nat := 60
  const CoarseIntervalMs: nat := 2000
  const FineIntervalMs: nat := 33
  /** Delay before the next refresh after a successful one, and after a failed one. */
  const RefreshOkDelayMs: nat := 61000
  const RefreshRetryDelayMs: nat := 5000

  /** The `data-req` and `data-poly` attributes of `#jdata`. */
  datatype JData = JData(req: Option<string>, poly: Option<string>)

  /** The page-lifetime globals `j_reqid`, `j_positions`, `j_frame`, `j_frame_i`,
      and the Leaflet marker's position. */
  datatype MapState = MapState(
    reqid: Option<string>,
    positions: seq<LatLng>,
    frame: seq<LatLng>,
    cursor: nat,
    marker: LatLng)

  /** A refresh callback's effect: the new state and the delay before the next refresh. */
  datatype Scheduled = Scheduled(state: MapState, delayMs: nat)

  /** The state invariant: the cursor never passes the end of the frame buffer,
      and the buffer is either the initial empty one or a full coarse path. */
  predicate Valid(st: MapState) {
    st.cursor <= |st.frame| && (|st.frame| == 0 || |st.frame| == FrameCount)
  }

  // ---------------------------------------------------------------- parsing

  /** One `lat;lon` field. A missing longitude is `parseFloat(undefined)`,
      which, like `parseFloat("")`, is NaN; both go through `num("")`. */
  function ParsePosition(field: string, num: string -> real): LatLng {
    var parts := Split(field, ';');
    LatLng(num(parts[0]), num(if |parts| > 1 then parts[1] else ""))
  }

  /** The whole `data-poly` string, one position per `|`-separated field. */
  function ParsePositions(poly: string, num: string -> real): seq<LatLng> {
    var fields := Split(poly, '|');
    seq(|fields|, i requires 0 <= i < |fields| => ParsePosition(fields[i], num))
  }

  /** `dbf_map_parse`: with no `#jdata` element nothing happens; otherwise the
      request id is always taken, and a truthy `data-poly` replaces the queue. */
  function Parse(st: MapState, jdata: Option<JData>, num: string -> real): (r: MapState)
    ensures r.frame == st.frame && r.cursor == st.cursor && r.marker == st.marker
    ensures jdata.None? ==> r == st
    ensures jdata.Some? ==> r.reqid == jdata.value.req
    ensures jdata.Some? && !Truthy(jdata.value.poly) ==> r.positions == st.positions
    ensures jdata.Some? && Truthy(jdata.value.poly) ==>
              var fields := Split(jdata.value.poly.value, '|');
              && |r.positions| == |fields|
              && forall i :: 0 <= i < |fields| ==> r.positions[i] == ParsePosition(fields[i], num)
  {
    match jdata
    case None => st
    case Some(j) =>
      var taken := st.(reqid := j.req);
      if Truthy(j.poly) then taken.(positions := ParsePositions(j.poly.value, num)) else taken
  }

  /** The serialised form `lat;lon|lat;lon|...` of a queue, given a number printer. */
  function Encode(q: seq<LatLng>, show: real -> string): string {
    Join(seq(|q|, i requires 0 <= i < |q| => show(q[i].lat) + ";" + show(q[i].lon)), '|')
  }

  /** `show` prints `x` as text that `num` reads back as `x` and that contains no separator. */
  ghost predicate PrintsBack(show: real -> string, num: string -> real, x: real) {
    num(show(x)) == x && ';' !in show(x) && '|' !in show(x)
  }

  /** Parsing the serialised form of a non-empty queue installs exactly that
      queue, whatever the queue held before. */
  lemma ParseEncode(st: MapState, q: seq<LatLng>, req: Option<string>, show: real -> string, num: string -> real)
    requires forall i :: 0 <= i < |q| ==> PrintsBack(show, num, q[i].lat) && PrintsBack(show, num, q[i].lon)
    requires |q| > 0
    ensures Parse(st, Some(JData(req, Some(Encode(q, show)))), num).positions == q
  {
    var fields := seq(|q|, i requires 0 <= i < |q| => show(q[i].lat) + ";" + show(q[i].lon));
    assert fields[0] in fields;
    assert Encode(q, show) != "" by {
      if Encode(q, show) == "" {
        JoinSplitEmpty(fields);
      }
    }
    forall i | 0 <= i < |fields| ensures '|' !in fields[i] {
      assert fields[i] == show(q[i].lat) + ";" + show(q[i].lon);
    }
    SplitJoin(fields, '|');
    var r := Parse(st, Some(JData(req, Some(Encode(q, show)))), num);
    forall i | 0 <= i < |q| ensures r.positions[i] == q[i] {
      var lat := show(q[i].lat);
      var lon := show(q[i].lon);
      assert fields[i] == lat + [';'] + lon;
      SplitJoin([lat, lon], ';');
      assert Join([lat, lon], ';') == lat + [';'] + lon;
    }
  }

  /** A join of at least one field containing the separator-free first field
      `show(..);show(..)` is not empty. */
  lemma JoinSplitEmpty(fields: seq<string>)
    requires |fields| > 0 && ';' in fields[0]
    ensures Join(fields, '|') != ""
  {
    if |fields| == 1 {
      assert Join(fields, '|') == fields[0];
    } else {
      assert |Join(fields, '|')| >= 1;
    }
  }

  /** An empty queue serialises to the empty string, which is falsy: the
      refresh then keeps the stale queue instead of clearing it. */
  lemma EmptyPolyKeepsQueue(st: MapState, req: Option<string>, show: real -> string, num: string -> real)
    ensures Encode([], show) == ""
    ensures Parse(st, Some(JData(req, Some(Encode([], show)))), num).positions == st.positions
  {
  }

  // ---------------------------------------------------------------- animation

  /** The point a fraction `t` of the way from `a` to `b`. */
  function Lerp(a: LatLng, b: LatLng, t: real): LatLng {
    LatLng(a.lat + (b.lat - a.lat) * t, a.lon + (b.lon - a.lon) * t)
  }

  /** The interpolation ratio `i / 60` of the 1-based frame `i`. */
  function Ratio(i: nat): real {
    i as real / FrameCount as real
  }

  /** The coarse path: frame `k` (0-based) is `start + (target - start) * (k+1)/60`. */
  function Path(start: LatLng, target: LatLng): (r: seq<LatLng>)
    ensures |r| == FrameCount
  {
    seq(FrameCount, k requires 0 <= k < FrameCount => Lerp(start, target, Ratio(k + 1)))
  }

  /** The frame loop of `dbf_anim_coarse`, pushing one interpolated point per
      step `i = 1..60`; it produces the path, and its last frame is the target. */
  method BuildFrame(start: LatLng, target: LatLng) returns (frame: seq<LatLng>)
    ensures frame == Path(start, target)
    ensures frame[FrameCount - 1] == target
  {
    frame := [];
    var i := 1;
    while i <= FrameCount
      invariant 1 <= i <= FrameCount + 1
      invariant frame == Path(start, target)[..i - 1]
    {
      frame := frame + [Lerp(start, target, Ratio(i))];
      i := i + 1;
    }
    PathEndsAtTarget(start, target);
  }

  /** `dbf_anim_coarse`: with an empty queue nothing changes; otherwise the head
      is dequeued and a fresh path from the marker to it replaces the buffer. */
  function CoarseTick(st: MapState): (r: MapState)
    ensures |st.positions| == 0 ==> r == st
    ensures |st.positions| > 0 ==>
              && r.positions == st.positions[1..]
              && r.frame == Path(st.marker, st.positions[0])
              && |r.frame| == FrameCount && r.frame[FrameCount - 1] == st.positions[0]
              && r.cursor == 0
              && r.marker == st.marker && r.reqid == st.reqid
  {
    if |st.positions| > 0 then
      PathEndsAtTarget(st.marker, st.positions[0]);
      st.(positions := st.positions[1..], frame := Path(st.marker, st.positions[0]), cursor := 0)
    else st
  }

  /** `dbf_anim_fine`: while the cursor is on a frame, the marker moves there
      and the cursor advances; past the end it is a no-op. */
  function FineTick(st: MapState): (r: MapState)
    ensures st.cursor < |st.frame| ==>
              r == st.(marker := st.frame[st.cursor], cursor := st.cursor + 1)
    ensures st.cursor >= |st.frame| ==> r == st
  {
    if st.cursor < |st.frame| then
      st.(marker := st.frame[st.cursor], cursor := st.cursor + 1)
    else st
  }

  /** `v` lies between `a` and `b`, whichever is larger. */
  predicate Between(a: real, v: real, b: real) {
    (a <= v <= b) || (b <= v <= a)
  }

  /** `p` lies componentwise between `a` and `b`. */
  predicate BoxBetween(a: LatLng, p: LatLng, b: LatLng) {
    Between(a.lat, p.lat, b.lat) && Between(a.lon, p.lon, b.lon)
  }

  lemma LerpComponentOrder(a: real, b: real, s: real, t: real)
    requires 0.0 <= s <= t <= 1.0
    ensures Between(a + (b - a) * s, a + (b - a) * t, b)
  {
    var d := b - a;
    assert (a + d * t) - (a + d * s) == d * (t - s);
    assert b - (a + d * t) == d * (1.0 - t);
    if d >= 0.0 {
      assert d * (t - s) >= 0.0;
      assert d * (1.0 - t) >= 0.0;
    } else {
      assert d * (t - s) <= 0.0;
      assert d * (1.0 - t) <= 0.0;
    }
  }

  lemma RatioMonotone(i: nat, j: nat)
    requires 0 < i <= j <= FrameCount
    ensures 0.0 <= Ratio(i) <= Ratio(j) <= 1.0
  {
    assert i as real <= j as real <= FrameCount as real;
  }

  /** The last frame is exactly the target. */
  lemma PathEndsAtTarget(start: LatLng, target: LatLng)
    ensures Path(start, target)[FrameCount - 1] == target
  {
    assert Ratio(FrameCount) == 1.0;
  }

  /** Between two ratios, the later interpolated point lies between the earlier one and `b`. */
  lemma LerpOrder(a: LatLng, b: LatLng, s: real, t: real)
    requires 0.0 <= s <= t <= 1.0
    ensures BoxBetween(Lerp(a, b, s), Lerp(a, b, t), b)
  {
    LerpComponentOrder(a.lat, b.lat, s, t);
    LerpComponentOrder(a.lon, b.lon, s, t);
  }

  /** Every frame lies between the start and the target, and each later frame
      lies between an earlier one and the target: the marker moves towards the
      target and never overshoots it. */
  lemma PathApproachesTarget(start: LatLng, target: LatLng, i: nat, j: nat)
    requires i <= j < FrameCount
    ensures BoxBetween(start, Path(start, target)[i], target)
    ensures BoxBetween(Path(start, target)[i], Path(start, target)[j], target)
  {
    var s := Ratio(i + 1);
    var t := Ratio(j + 1);
    RatioMonotone(i + 1, j + 1);
    var p := Path(start, target);
    assert p[i] == Lerp(start, target, s);
    assert p[j] == Lerp(start, target, t);
    assert Lerp(start, target, 0.0) == start;
    LerpOrder(start, target, 0.0, s);
    LerpOrder(start, target, s, t);
  }

  // ---------------------------------------------------------------- refresh

  /** `dbf_map_reload` once its request settles: success re-reads `#jdata` from
      the reloaded info box and waits 61 s; failure changes nothing and retries
      after 5 s. */
  function Refresh(st: MapState, fetch: Fetch<Option<JData>>, num: string -> real): (r: Scheduled)
    ensures fetch.Loaded? ==> r.state == Parse(st, fetch.body, num) && r.delayMs == RefreshOkDelayMs
    ensures fetch.Failed? ==> r.state == st && r.delayMs == RefreshRetryDelayMs
    ensures r.state.frame == st.frame && r.state.cursor == st.cursor && r.state.marker == st.marker
  {
    match fetch
    case Loaded(jdata) => Scheduled(Parse(st, jdata, num), RefreshOkDelayMs)
    case Failed => Scheduled(st, RefreshRetryDelayMs)
  }

  /** The document-ready handler when `#infobox` exists: an empty buffer, the
      marker where the map put it, a first parse, and the first refresh in 61 s. */
  function Boot(jdata: Option<JData>, marker: LatLng, num: string -> real): (r: Scheduled)
    ensures r.state == Parse(MapState(None, [], [], 0, marker), jdata, num)
    ensures Valid(r.state) && |r.state.frame| == 0 && r.state.marker == marker
    ensures r.delayMs == RefreshOkDelayMs
  {
    Scheduled(Parse(MapState(None, [], [], 0, marker), jdata, num), RefreshOkDelayMs)
  }

  // ---------------------------------------------------------------- runs

  /** The callbacks that can fire, in any interleaving. */
  datatype Event = Coarse | Fine | Reload(fetch: Fetch<Option<JData>>)

  function Step(st: MapState, e: Event, num: string -> real): MapState {
    match e
    case Coarse => CoarseTick(st)
    case Fine => FineTick(st)
    case Reload(f) => Refresh(st, f, num).state
  }

  function Run(st: MapState, es: seq<Event>, num: string -> real): MapState
    decreases |es|
  {
    if |es| == 0 then st else Run(Step(st, es[0], num), es[1..], num)
  }

  function Fines(n: nat): (es: seq<Event>)
    ensures |es| == n && forall i :: 0 <= i < n ==> es[i] == Fine
  {
    seq(n, _ => Fine)
  }

  /** Every callback keeps the cursor within the buffer. */
  lemma StepPreservesValid(st: MapState, e: Event, num: string -> real)
    requires Valid(st)
    ensures Valid(Step(st, e, num))
  {
  }

  /** Any interleaving of ticks and refreshes keeps the cursor within the buffer. */
  lemma {:induction false} RunPreservesValid(st: MapState, es: seq<Event>, num: string -> real)
    requires Valid(st)
    ensures Valid(Run(st, es, num))
    decreases |es|
  {
    if |es| > 0 {
      StepPreservesValid(st, es[0], num);
      RunPreservesValid(Step(st, es[0], num), es[1..], num);
    }
  }

  /** `n` fine ticks that stay within the buffer move the marker to frame
      `cursor + n - 1` and touch nothing but the marker and the cursor. */
  lemma {:induction false} FineTicksFollowFrame(st: MapState, n: nat, num: string -> real)
    requires st.cursor + n <= |st.frame|
    ensures var r := Run(st, Fines(n), num);
            && r.cursor == st.cursor + n
            && r.frame == st.frame && r.positions == st.positions && r.reqid == st.reqid
            && (n > 0 ==> r.marker == st.frame[st.cursor + n - 1])
            && (n == 0 ==> r.marker == st.marker)
    decreases n
  {
    if n > 0 {
      var next := FineTick(st);
      assert Fines(n)[1..] == Fines(n - 1);
      FineTicksFollowFrame(next, n - 1, num);
    }
  }

  /** Running two event sequences one after the other is running their concatenation. */
  lemma {:induction false} RunAppend(st: MapState, a: seq<Event>, b: seq<Event>, num: string -> real)
    ensures Run(st, a + b, num) == Run(Run(st, a, num), b, num)
    decreases |a|
  {
    if |a| > 0 {
      assert (a + b)[0] == a[0];
      assert (a + b)[1..] == a[1..] + b;
      RunAppend(Step(st, a[0], num), a[1..], b, num);
    } else {
      assert a + b == b;
    }
  }

  /** Fine ticks once the buffer is drained change nothing. */
  lemma {:induction false} FinesPastEnd(st: MapState, n: nat, num: string -> real)
    requires st.cursor >= |st.frame|
    ensures Run(st, Fines(n), num) == st
    decreases n
  {
    if n > 0 {
      assert Fines(n)[1..] == Fines(n - 1);
      FinesPastEnd(FineTick(st), n - 1, num);
    }
  }

  /** Both intervals start together, so with ideal timers the fine ticks fire at
      `33 * m` ms and coarse period `k` (from `2000 * k` to `2000 * (k + 1)` ms)
      receives those with `2000 * k < 33 * m <= 2000 * (k + 1)`. */
  function FineTicksInPeriod(k: nat): nat {
    var hi := CoarseIntervalMs * (k + 1) / FineIntervalMs;
    var lo := CoarseIntervalMs * k / FineIntervalMs;
    if hi >= lo then hi - lo else 0
  }

  /** Since 2000 = 60 * 33 + 20, a coarse period receives 60 or 61 fine ticks,
      never fewer than there are frames. */
  lemma FineTicksInPeriodBounds(k: nat)
    ensures FineTicksInPeriod(k) == FrameCount || FineTicksInPeriod(k) == FrameCount + 1
  {
    var a := CoarseIntervalMs * k;
    var q := a / FineIntervalMs;
    var r := a % FineIntervalMs;
    assert a == 33 * q + r && 0 <= r < 33;
    assert CoarseIntervalMs * (k + 1) == 33 * (q + 60) + (r + 20);
    if r + 20 < 33 {
      assert CoarseIntervalMs * (k + 1) / FineIntervalMs == q + 60;
    } else {
      assert CoarseIntervalMs * (k + 1) == 33 * (q + 61) + (r - 13);
      assert CoarseIntervalMs * (k + 1) / FineIntervalMs == q + 61;
    }
  }

  /** A coarse tick on a non-empty queue followed by at least as many fine
      ticks as there are frames leaves the marker exactly on the dequeued
      target, with the buffer fully drained; ticks past the last frame do nothing. */
  lemma {:induction false} CoarseThenFinesReachTarget(st: MapState, n: nat, num: string -> real)
    requires |st.positions| > 0
    requires FrameCount <= n
    ensures var r := Run(CoarseTick(st), Fines(n), num);
            && r.marker == st.positions[0]
            && r.cursor == |r.frame| == FrameCount
            && r.positions == st.positions[1..]
  {
    var c := CoarseTick(st);
    assert Fines(n) == Fines(FrameCount) + Fines(n - FrameCount);
    RunAppend(c, Fines(FrameCount), Fines(n - FrameCount), num);
    FineTicksFollowFrame(c, FrameCount, num);
    FinesPastEnd(Run(c, Fines(FrameCount), num), n - FrameCount, num);
    PathEndsAtTarget(st.marker, st.positions[0]);
  }

  /** A run of callbacks with no coarse tick among them: fine ticks and refreshes. */
  predicate NoCoarse(es: seq<Event>) {
    forall i :: 0 <= i < |es| ==> !es[i].Coarse?
  }

  /** The number of fine ticks in a run. */
  function FineCount(es: seq<Event>): nat
    decreases |es|
  {
    if |es| == 0 then 0 else (if es[0].Fine? then 1 else 0) + FineCount(es[1..])
  }

  function Min(a: int, b: int): int {
    if a <= b then a else b
  }

  /** Refreshes leave the buffer, cursor and marker alone, so between two coarse
      ticks only the fine ticks move the marker: each advances it one frame
      until the buffer is drained. */
  lemma {:induction false} FinesAndReloads(st: MapState, es: seq<Event>, num: string -> real)
    requires st.cursor <= |st.frame|
    requires NoCoarse(es)
    ensures var r := Run(st, es, num);
            && r.frame == st.frame
            && r.cursor == Min(st.cursor + FineCount(es), |st.frame|)
            && (r.cursor > st.cursor ==> r.marker == st.frame[r.cursor - 1])
            && (r.cursor == st.cursor ==> r.marker == st.marker)
    decreases |es|
  {
    if |es| > 0 {
      assert !es[0].Coarse?;
      assert NoCoarse(es[1..]) by {
        forall i | 0 <= i < |es[1..]| ensures !es[1..][i].Coarse? {
          assert es[1..][i] == es[i + 1];
        }
      }
      FinesAndReloads(Step(st, es[0], num), es[1..], num);
    }
  }

  /** Whichever coarse period `k` it starts, a coarse tick on a non-empty queue
      followed by that period's fine ticks, with any refresh callbacks in
      between, lands the marker on the dequeued target. A successful refresh
      may replace the rest of the queue meanwhile. */
  lemma PeriodReachesTarget(st: MapState, k: nat, es: seq<Event>, num: string -> real)
    requires |st.positions| > 0
    requires NoCoarse(es) && FineCount(es) == FineTicksInPeriod(k)
    ensures var r := Run(CoarseTick(st), es, num);
            r.marker == st.positions[0] && r.cursor == |r.frame| == FrameCount
  {
    FineTicksInPeriodBounds(k);
    FinesAndReloads(CoarseTick(st), es, num);
    PathEndsAtTarget(st.marker, st.positions[0]);
  }

  /** Queue `[(52.0, 8.0)]` and the marker at `(51.9, 7.9)`: one coarse tick and
      sixty fine ticks leave the marker on `(52.0, 8.0)` with the queue empty. */
  lemma ScenarioSingleTarget(num: string -> real)
    ensures var st := MapState(None, [LatLng(52.0, 8.0)], [], 0, LatLng(51.9, 7.9));
            var r := Run(st, [Coarse] + Fines(60), num);
            r.marker == LatLng(52.0, 8.0) && r.positions == []
  {
    var st := MapState(None, [LatLng(52.0, 8.0)], [], 0, LatLng(51.9, 7.9));
    assert ([Coarse] + Fines(60))[1..] == Fines(60);
    CoarseThenFinesReachTarget(st, 60, num);
  }

  /** A failed refresh is followed by the short retry, and a later successful
      one restores the long interval. */
  lemma ScenarioRetryThenRecover(st: MapState, page: Option<JData>, num: string -> real)
    ensures var failed := Refresh(st, Failed, num);
            && failed.delayMs == RefreshRetryDelayMs < RefreshOkDelayMs
            && failed.state == st
            && Refresh(failed.state, Loaded(page), num).delayMs == RefreshOkDelayMs
  {
  }
}

=== FILE: panels.dfy ===
/**
 The exclusive detail panels of the departure lists. Every `.moreinfo`
 element carries either `expanded-moreinfo` or `collapsed-moreinfo`; the
 state is the expanded flag of each, in document order. A click on a list
 item toggles the item's own `.moreinfo` children one after another, and
 expanding a child first collapses every expanded panel on the page.

 Two scripts bind this handler to different lists: the departure-board one to
 the items of `div.app` and `div.infoscreen`, the clean display to the items
 of `div.displayclean`.
 */
module Panels {

  /** `flags[i]` holds when the i-th `.moreinfo` element has `expanded-moreinfo`. */
  type Flags = seq<bool>

  /** The list an `li` element belongs to. */
  datatype Container = App | Infoscreen | DisplayClean | Elsewhere

  /** A list item and the indices of its `.moreinfo` children among all panels. */
  datatype Item = Item(container: Container, children: seq<nat>)

  /** The script that registered the click handlers. */
  datatype Script = BoardCollapse | CleanCollapse

  /** The list items whose clicks each script handles. */
  predicate Handles(script: Script, c: Container) {
    match script
    case BoardCollapse => c == App || c == Infoscreen
    case CleanCollapse => c == DisplayClean
  }

  /** The item's children are panels of the page. */
  predicate ChildrenOf(p: Flags, item: Item) {
    forall k :: 0 <= k < |item.children| ==> item.children[k] < |p|
  }

  predicate AtMostOneExpanded(p: Flags) {
    forall i, j :: 0 <= i < |p| && 0 <= j < |p| && p[i] && p[j] ==> i == j
  }

  predicate NoneExpanded(p: Flags) {
    forall i :: 0 <= i < |p| ==> !p[i]
  }

  /** The inner `$('.moreinfo').each`: every expanded panel is collapsed. */
  function CollapseAll(p: Flags): (r: Flags)
    ensures |r| == |p| && NoneExpanded(r)
  {
    seq(|p|, i requires 0 <= i < |p| => false)
  }

  /** The handler body for one `.moreinfo` child `c`: an expanded child is
      collapsed on its own; a collapsed one becomes the only expanded panel. */
  function ToggleChild(p: Flags, c: nat): (r: Flags)
    requires c < |p|
    ensures |r| == |p|
    ensures p[c] ==> !r[c] && forall i :: 0 <= i < |p| && i != c ==> r[i] == p[i]
    ensures !p[c] ==> r[c] && forall i :: 0 <= i < |p| && i != c ==> !r[i]
    ensures AtMostOneExpanded(p) ==> AtMostOneExpanded(r)
  {
    if p[c] then p[c := false] else CollapseAll(p)[c := true]
  }

  /** `$(this).children('.moreinfo').each(...)`: the children in document order. */
  function ToggleChildren(p: Flags, cs: seq<nat>): (r: Flags)
    requires forall k :: 0 <= k < |cs| ==> cs[k] < |p|
    ensures |r| == |p|
    ensures AtMostOneExpanded(p) ==> AtMostOneExpanded(r)
    decreases |cs|
  {
    if |cs| == 0 then p else ToggleChildren(ToggleChild(p, cs[0]), cs[1..])
  }

  /** A click on `item` under `script`: handled items toggle their children;
      items of other lists have no handler from this script. */
  function Click(script: Script, p: Flags, item: Item): (r: Flags)
    requires ChildrenOf(p, item)
    ensures |r| == |p|
    ensures !Handles(script, item.container) ==> r == p
    ensures AtMostOneExpanded(p) ==> AtMostOneExpanded(r)
  {
    if Handles(script, item.container) then ToggleChildren(p, item.children) else p
  }

  /** A handled item with a single panel toggles just that panel. */
  lemma SingleChildClick(script: Script, p: Flags, item: Item, c: nat)
    requires Handles(script, item.container)
    requires item.children == [c] && c < |p|
    ensures Click(script, p, item) == ToggleChild(p, c)
  {
    assert item.children[0] == c;
    assert item.children[1..] == [];
    assert ToggleChildren(ToggleChild(p, c), []) == ToggleChild(p, c);
  }

  /** The board script on an item with one expanded panel: only that panel collapses. */
  lemma BoardClickExpanded(p: Flags, item: Item, c: nat)
    requires item.container == App || item.container == Infoscreen
    requires item.children == [c] && c < |p| && p[c]
    ensures var r := Click(BoardCollapse, p, item);
            !r[c] && forall i :: 0 <= i < |p| && i != c ==> r[i] == p[i]
  {
    SingleChildClick(BoardCollapse, p, item, c);
  }

  /** The board script on an item with one collapsed panel: it becomes the only expanded one. */
  lemma BoardClickCollapsed(p: Flags, item: Item, c: nat)
    requires item.container == App || item.container == Infoscreen
    requires item.children == [c] && c < |p| && !p[c]
    ensures var r := Click(BoardCollapse, p, item);
            r[c] && forall i :: 0 <= i < |p| && i != c ==> !r[i]
  {
    SingleChildClick(BoardCollapse, p, item, c);
  }

  /** Clicking the same handled single-panel item twice: from a collapsed panel
      every panel ends collapsed (the ones the first click closed stay closed);
      from the one expanded panel the page returns to where it was. */
  lemma ClickTwice(script: Script, p: Flags, item: Item, c: nat)
    requires Handles(script, item.container)
    requires item.children == [c] && c < |p|
    requires AtMostOneExpanded(p)
    ensures var once := Click(script, p, item);
            ChildrenOf(once, item) &&
            var twice := Click(script, once, item);
            (!p[c] ==> NoneExpanded(twice)) && (p[c] ==> twice == p)
  {
    var once := Click(script, p, item);
    SingleChildClick(script, p, item, c);
    SingleChildClick(script, once, item, c);
    var twice := Click(script, once, item);
    if p[c] {
      assert twice == p;
    }
  }

  /** With two collapsed children the item's click goes through both in turn,
      so a second click leaves the second child, not no panel, expanded. */
  lemma TwoChildrenClickTwice()
    ensures var item := Item(App, [0, 1]);
            Click(BoardCollapse, Click(BoardCollapse, [false, false], item), item) == [false, true]
  {
    var item := Item(App, [0, 1]);
    assert item.children[1..] == [1];
    assert Click(BoardCollapse, [false, false], item) == [false, true];
  }

  /** The clean display: handled items are those of `div.displayclean`; an
      expanded panel collapses alone, a collapsed one becomes the only expanded
      panel, and a second click on it leaves none expanded. */
  lemma CleanClick(p: Flags, item: Item, c: nat)
    requires item.container == DisplayClean
    requires item.children == [c] && c < |p|
    requires AtMostOneExpanded(p)
    ensures var r := Click(CleanCollapse, p, item);
            && (p[c] ==> !r[c] && forall i :: 0 <= i < |p| && i != c ==> r[i] == p[i])
            && (!p[c] ==> r[c] && forall i :: 0 <= i < |p| && i != c ==> !r[i])
            && AtMostOneExpanded(r)
            && (!p[c] ==> NoneExpanded(Click(CleanCollapse, r, item)))
  {
    var r := Click(CleanCollapse, p, item);
    SingleChildClick(CleanCollapse, p, item, c);
    SingleChildClick(CleanCollapse, r, item, c);
  }
}

=== FILE: settings.dfy ===
/**
 The collapsible settings sections of the board pages ("more settings" and
 "developers"). A header and its panel each carry a `…-collapsed` and/or a
 `…-expanded` class; a click on the header decides by the header's
 collapsed class alone and then sets header and panel together.
 */
module Settings {

  /** Which of the element's two classes are present. */
  datatype Classes = Classes(collapsed: bool, expanded: bool)

  datatype Section = Section(header: Classes, panel: Classes)

  const Expanded: Classes := Classes(false, true)
  const Collapsed: Classes := Classes(true, false)

  /** Header and panel show the same single state. */
  predicate Settled(s: Section) {
    s.header == s.panel && (s.header == Expanded || s.header == Collapsed)
  }

  /** The header click handler: a header with the collapsed class opens the
      section, any other header closes it; either way, each element ends with
      exactly one of its classes, the same one for header and panel. */
  function ClickHeader(s: Section): (r: Section)
    ensures Settled(r)
    ensures r.header.expanded <==> s.header.collapsed
  {
    if s.header.collapsed then Section(Expanded, Expanded) else Section(Collapsed, Collapsed)
  }

  /** On a settled section a click flips the state, and a second click restores it. */
  lemma ClickHeaderTwice(s: Section)
    requires Settled(s)
    ensures ClickHeader(s).header.expanded != s.header.expanded
    ensures ClickHeader(ClickHeader(s)) == s
  {
  }

  /** A header that starts with neither class is treated as open and closes,
      so two clicks from an unsettled page do not restore it. */
  lemma UnmarkedHeaderCloses()
    ensures ClickHeader(Section(Classes(false, false), Classes(false, false))) == Section(Collapsed, Collapsed)
  {
  }
}
